=== FILE: README.md ===
# Task lifecycle and space membership, modelled in Dafny

This project models the decision-making core of a multi-tenant task
tracker written in Go: the membership registry of spaces (workspaces),
the task engine that creates, patches, deletes and completes tasks, and
the HTTP-facing checks that decide who may create a space and who may
invite into one.

The persisted state is an abstract `Store` (module `Model`): task rows in a
`map<TaskId, Task>`, space rows in a `map<SpaceId, Space>`, membership roles
in a `map<(SpaceId, UserId), Role>`, and the set of registered user ids that
space and membership rows reference. Every mutating service operation is a pure
function from a store to a `Transition` (an error or a result, plus the store it
leaves); the HTTP handlers that mutate return a `Reply` (a response, plus the
store it leaves) instead.
Lookups return a `Result` or a pair; the list queries are methods that
return a sequence.
The clock (`now`), and ids that the database or a UUID generator would hand
out, are parameters. An id that is already taken fails the insert, as the
primary-key check would. One SQL statement sees one instant, so `now()` used
twice in one statement is one value. Go's `int` is 64 bits wide (`Int64`),
and `strconv.Atoi` is modelled exactly (module `Decimal`). The user-id
columns are PostgreSQL `INTEGER`, which is 32 bits wide. A user id outside
that range cannot be sent as a query argument, so the statement fails with
`IntegerOutOfRange` before it reaches the database.

Modules, following the program's structure:

- `Wrappers` holds `Option` and `Result`.
- `Decimal` holds `strconv.Atoi` and `strconv.Itoa`.
- `Model` holds `Task`, `TaskPatch`, `Space`, `Store` and `Error`, plus the store invariant `Valid`.
- `SpaceService` holds `IsMember`, `CreateSpace` and `AddMember`.
- `TaskService` holds `CreateTask`, `GetTaskByID`, `ListTasks`, `GetTasksByDashboardID`, `UpdateTask`, `DeleteTask` and `MarkTaskDone`.
- `SpaceHandler` holds the caller-id resolution and the `createSpace` and `inviteToSpace` decisions.
- `Scenarios` holds end-to-end runs through the handlers and services.

Behaviour the lemmas make explicit:

- The done-guard compares the approval status with `"need-approve"` only. The
  sample data of the task handler uses `"need-approval"`, and that value passes
  the guard (`TaskService.NeedApprovalSpellingPassesGuard`).
- The guard applies only to `MarkTaskDone`. A patch may set status `"done"` on a
  blocked task (`TaskService.PatchBypassesDoneGuard`), and a done task can be
  marked done again, which moves its completion stamp (`TaskService.MarkTaskDoneRestamps`).
- An admin may re-invite themselves with another role. That can leave a space
  with no admin: the registry does not keep one (`SpaceHandler.AdminCanDemoteThemselves`).
- Blocking ids are stored as given. Nothing checks that they exist or that the
  blocking graph is acyclic (`TaskService.CreateTaskIgnoresBlockers`).
- Deleting an absent task id succeeds and changes nothing.

## Model

| member | source | states |
|---|---|---|
| Decimal.Atoi | internal/service/task.go:34-37 | a reporter id is accepted only as an optional sign followed by decimal digits that fit in 64 bits; a plus or unsigned number is non-negative, a minus one non-positive |
| Decimal.NatDigitsValue | internal/service/task.go:34-37 | the decimal rendering of a natural number reads back as that number |
| Decimal.AtoiItoa | internal/handler/space.go:121-130 | every 64-bit user id written in decimal parses back to itself |
| Decimal.AtoiDigits | internal/service/task.go:34-37 | a non-empty run of digits whose value fits is accepted with that value, leading zeros included |
| Decimal.AtoiSigned | internal/service/task.go:34-37 | a leading "+" reads a digit run as its plain value, a leading "-" as its negation when that fits in 64 bits, and anything beyond is rejected |
| Decimal.AtoiDigitsTooLarge | internal/service/task.go:34-37 | an unsigned or "+" digit run whose value exceeds the largest 64-bit integer is rejected, not clamped, so such a reporter id is an invalid reporter rather than a database range error |
| Decimal.AtoiRejects | internal/service/task.go:34-37 | the empty string, a lone sign and a digit string with a non-digit in it are rejected |
| SpaceService.IsMember | internal/service/space.go:74-86 | a present (space, user) row answers true with its stored role; an absent row answers (false, "") and is not an error; a user id outside the 32-bit column range makes the query fail |
| SpaceService.InsertSpaceRow | internal/service/space.go:42-45 | a space insert fails on a creator id outside the 32-bit column, a taken id, or a creator who is not a user, and otherwise adds exactly that row |
| SpaceService.InsertMembershipRow | internal/service/space.go:47-50 | a membership insert fails on a user id outside the 32-bit column, an existing pair, or a missing space or user, and otherwise adds exactly that row |
| SpaceService.CreateSpace | internal/service/space.go:24-57 | a failure at any step leaves the store unchanged; success needs a fresh id and a registered creator whose id fits the column, and adds exactly the space row and the creator's "admin" membership |
| SpaceService.EffectiveRole | internal/service/space.go:61-63 | an empty role is stored as "member"; any other role is stored as given |
| SpaceService.AddMember | internal/service/space.go:60-71 | the upsert sets the pair's role whether or not the pair existed; a user id outside the 32-bit column fails; a new pair must reference an existing space and user; a failure changes nothing and otherwise nothing but that pair changes |
| SpaceService.CreateSpaceMakesCreatorAdmin | internal/service/space.go:42-56 | after a successful creation the space exists with the given name and creator, and the creator is a member with role "admin" |
| SpaceService.CreateSpaceAllOrNothing | internal/service/space.go:33-54 | either nothing changes, or both the new space row and the creator's membership appear together |
| SpaceService.CreateSpaceKeepsExisting | internal/service/space.go:42-50 | no pre-existing space or membership is altered by a creation |
| SpaceService.CreateSpaceSucceeds | internal/service/space.go:24-57 | in a consistent store, with no fault, a fresh id and a registered creator, creation succeeds |
| SpaceService.CreateSpacePreservesValid | internal/service/space.go:42-50 | creation keeps rows under their own ids and every membership pointing at an existing space and user |
| SpaceService.AddMemberThenIsMember | internal/service/space.go:60-85 | after an invitation the pair is a member with the invited role, "member" when the role was empty |
| SpaceService.AddMemberFrame | internal/service/space.go:64-70 | an invitation changes the answer of IsMember for no other pair |
| SpaceService.AddMemberIdempotent | internal/service/space.go:64-70 | repeating an invitation gives the same answer and changes nothing further |
| SpaceService.AddMemberLastWriterWins | internal/service/space.go:64-70 | a second invitation of the same pair overwrites the first one's role |
| SpaceService.AddMemberPreservesValid | internal/service/space.go:64-70 | an invitation keeps every membership pointing at an existing space and user |
| TaskService.CreateTask | internal/service/task.go:27-101 | an absent or empty space, a non-numeric reporter id, a reporter id the membership query cannot send, or a reporter outside the space each fail with their own error and leave the store unchanged; success adds one task under the fresh id, with the input's content, status "to-do" when empty, both stamps at now, and no start or completion stamp |
| TaskService.CreateThenGet | internal/service/task.go:27-155 | a created task is visible to a lookup by its id |
| TaskService.CreateTaskAcceptsCanonicalReporter | internal/service/task.go:34-44 | in a consistent store, a member whose id is written in plain decimal passes every creation check |
| TaskService.CreateTaskIgnoresBlockers | internal/service/task.go:70-73 | the blocking list never affects whether creation succeeds, and is stored as given |
| TaskService.CreateTaskPreservesValid | internal/service/task.go:46-100 | creation keeps every task under its own id with its update stamp not before its creation stamp |
| TaskService.GetTaskByID | internal/service/task.go:103-157 | a lookup answers the stored task exactly when the id is present, and a not-found error naming the id otherwise |
| TaskService.SelectTasks | internal/service/task.go:242-298 | a query returns one entry per selected row: every entry is a stored row on the dashboard, and every such row appears |
| TaskService.ListTasks | internal/service/task.go:185-240 | the listing holds exactly the stored tasks, one entry per row |
| TaskService.GetTasksByDashboardID | internal/service/task.go:242-298 | the result holds exactly the tasks whose dashboard id is the one asked for, one entry per row |
| TaskService.DeadlineTextInjective | internal/service/task.go:335-337 | the stand-in rendering of a patched deadline never stores two different timestamps as the same text |
| TaskService.ApplyPatch | internal/service/task.go:311-352 | present patch fields overwrite their columns, absent ones keep them, the update stamp is always refreshed, and id, space and creation stamp never change |
| TaskService.UpdateTask | internal/service/task.go:300-393 | an unknown id fails with not-found and changes nothing; otherwise only that task changes, to the patched row |
| TaskService.ApplyEmptyPatch | internal/service/task.go:351-352 | an empty patch still succeeds and refreshes only the update stamp |
| TaskService.ApplyPatchIdempotent | internal/service/task.go:311-352 | applying a patch twice at one instant equals applying it once |
| TaskService.PatchCannotClear | internal/model/model.go:30-42 | no patch can null a nullable column that holds a value |
| TaskService.ApplyPatchCompose | internal/service/task.go:311-352 | two patches in a row act as their merge, with later fields winning, applied at the later instant |
| TaskService.UpdateThenGet | internal/service/task.go:300-393 | an update is visible to a lookup of that task and invisible to lookups of any other |
| TaskService.UpdateTaskPreservesValid | internal/service/task.go:351-352 | with a clock no earlier than any stored update, an update keeps update stamps not before creation stamps |
| TaskService.PatchBypassesDoneGuard | internal/service/task.go:317-319 | a task the done-guard refuses can still be given status "done" by an update |
| TaskService.DeleteTask | internal/service/task.go:395-398 | deletion always succeeds, removes exactly that id, and leaves every other task, space and membership intact |
| TaskService.DeleteTaskIdempotent | internal/service/task.go:395-398 | deleting twice equals deleting once, and deleting an absent id changes nothing |
| TaskService.DeleteThenGet | internal/service/task.go:395-398 | after a delete the id is not found and every other lookup answers as before |
| TaskService.DeleteTaskPreservesValid | internal/service/task.go:395-398 | a delete keeps the store consistent |
| TaskService.MarkTaskDone | internal/service/task.go:400-473 | unknown id fails not-found; a non-empty blocking list fails naming the blockers; approval status exactly "need-approve" fails; on any failure nothing changes; success sets status "done" and completion and update stamps to now, and changes nothing else |
| TaskService.NeedApprovalSpellingPassesGuard | internal/service/task.go:423-425 | an unblocked task with approval status "need-approval" is marked done |
| TaskService.MarkTaskDoneRestamps | internal/service/task.go:427-437 | marking a done task done again succeeds and moves its completion stamp |
| TaskService.MarkTaskDoneThenGet | internal/service/task.go:427-437 | a task marked done is read back as done with its completion stamp |
| TaskService.MarkTaskDonePreservesValid | internal/service/task.go:427-437 | with a clock no earlier than any stored update, marking done keeps the store consistent |
| SpaceHandler.UserIdFromCtx | internal/handler/space.go:112-135 | an integer request-local value wins; a numeric local string comes next; otherwise the numeric X-User-ID header; otherwise no caller; a non-numeric local string falls through to the header |
| SpaceHandler.CreateSpace | internal/handler/space.go:31-49 | no caller id means unauthorized and a missing or empty name means bad request, neither creating anything; otherwise the answer is Created with the service's new store exactly when the service call succeeds, and an internal error with the store unchanged when it fails; a created space carries the name, the caller as creator, and the caller as admin |
| SpaceHandler.InviteToSpace | internal/handler/space.go:53-89 | no caller is unauthorized; a caller id the membership query cannot send is an internal error; a caller who is not exactly "admin" is forbidden before the body is read; a zero or missing user id is a bad request; an admin's valid invitation answers no-content with the upserted store exactly when the upsert succeeds, and an internal error with the store unchanged otherwise; the invitee gets the role, or "member" when empty, and no other pair changes |
| SpaceHandler.LocalTakesPrecedence | internal/handler/space.go:114-125 | once the request-local value resolves, the header plays no part |
| SpaceHandler.HeaderFallback | internal/handler/space.go:127-132 | with no usable local value, a decimal X-User-ID header identifies the caller |
| SpaceHandler.AdminCanDemoteThemselves | internal/handler/space.go:69-88 | the only admin of a space can re-invite themselves as "member", leaving the space without an admin |
| Scenarios.SetUpFrontend | internal/handler/space.go:31-89 | user 1 creates "Frontend" and is its admin; inviting user 2 as member succeeds |
| Scenarios.MemberTaskIsMarkedDone | internal/service/task.go:27-101 | an invited member files an approved, unblocked task, which is then marked done with a completion stamp |
| Scenarios.BlockedTaskIsRefused | internal/service/task.go:418-420 | the same task blocked by "task-9" is refused with that blocker named and stays as it was |
| Scenarios.OutsiderIsRefused | internal/service/task.go:42-44 | a user who is not a member of the space cannot file a task in it, and nothing changes |
| Scenarios.WideReporterIdFailsQuery | internal/service/task.go:34-41 | reporter "3000000000" parses but does not fit the user-id column, so creation fails with that database error and nothing changes |
| Scenarios.MemberCannotInvite | internal/handler/space.go:69-71 | a plain member's invitation is forbidden and nothing changes |

## Left out

- Database access is left out: SQL text, connection pooling, connection retry, schema creation and the migration of old user rows. Each SQL statement is modelled as one atomic step on the store.
- Infrastructure failures are left out except in `SpaceService.CreateSpace`, where a failing step is a parameter so that the transaction's all-or-nothing behaviour can be stated. Elsewhere a failing statement is atomic and only returns an error. `IsMember` fails only on a user id outside the column range; its connectivity errors are not modelled.
- Concurrency is left out. `MarkTaskDone` reads and then writes in two statements outside any transaction. The model runs them as one step, so the race between them is not represented.
- TaskService.MarkTaskDone: the source's read statement names the column `blockedBy` without quotes, so PostgreSQL looks for a column `blockedby`, which does not exist. Every call of the program's `MarkTaskDone` therefore ends in a database error, even for an unknown id. The model shows the intended guard: it reads the blocking list as if the column were quoted.
- TaskService.GetTaskByID: the display names joined from users and dashboards are not modelled. A lookup answers the stored row.
- TaskService.ApplyPatch: the patch carries the deadline as a timestamp but the column is text. The database's textual rendering is replaced by `DeadlineText`, a stand-in.
- Task ids are opaque strings. The id column is a UUID, so PostgreSQL rejects a non-UUID id with its own error in every statement that filters on it. A lookup, update or mark-done of such an id would get that error instead of not-found, and a delete would get it instead of success. That path is not modelled: the model answers not-found, or for a delete, success with nothing removed.
- Go's distinction between a nil and an empty blocking list (SQL NULL versus an empty array) is not kept. Both are the empty sequence, and the done-guard treats them alike.
- The order of rows returned by the list queries is unspecified. The model picks the keys in an arbitrary order, and its contracts speak only of membership and count.
- The wiring mismatches are left out: the task service is constructed with one argument instead of two; the update handler passes a whole task rather than a patch; the space type is referenced but not declared. The service-level semantics are modelled.
- Password hashing, tokens and the authentication middleware (not wired in) are left out, as are the user, dashboard and auth services and handlers, the task handler's status mapping and sample data, logging, configuration and the process entry point. These are foreign calls or plumbing without decisions. Users are a given set in the store.
- The space lookup and listing endpoints are left out. The lookup echoes the requested id, or answers bad request for an empty one, without reading the store. The listing answers "not implemented".

=== FILE: decimal.dfy ===
/**
  Decimal integer parsing and formatting as Go's `strconv.Atoi` and
  `strconv.Itoa` do it on a 64-bit platform, where `int` is 64 bits wide.
 */
module Decimal {
  import opened Wrappers

  const MinInt64: int := -0x8000_0000_0000_0000
  const MaxInt64: int := 0x7FFF_FFFF_FFFF_FFFF

  /** Go's `int` on a 64-bit platform. */
  type Int64 = x: int | MinInt64 <= x <= MaxInt64

  predicate IsDigit(c: char) {
    '0' <= c <= '9'
  }

  predicate AllDigits(s: string) {
    forall i :: 0 <= i < |s| ==> IsDigit(s[i])
  }

  function DigitValue(c: char): nat
    requires IsDigit(c)
  {
    c as int - '0' as int
  }

  function DigitChar(d: nat): char
    requires d < 10
  {
    ('0' as int + d) as char
  }

  /** The value of a run of decimal digits, most significant first. */
  function DigitsValue(s: string): nat
    requires AllDigits(s)
  {
    if |s| == 0 then 0 else DigitsValue(s[..|s| - 1]) * 10 + DigitValue(s[|s| - 1])
  }

  /**
    `strconv.Atoi`: an optional `+` or `-` followed by at least one ASCII
    digit, and nothing else; the value must fit in 64 bits. Leading zeros
    are accepted; spaces, underscores and an empty string are not.
   */
  function Atoi(s: string): (r: Option<Int64>)
    ensures r.Some? ==> |s| > 0 && forall i :: 0 < i < |s| ==> IsDigit(s[i])
    ensures r.Some? ==> IsDigit(s[0]) || ((s[0] == '-' || s[0] == '+') && |s| > 1)
    ensures |s| > 0 && s[0] != '-' && r.Some? ==> r.value >= 0
    ensures |s| > 0 && s[0] == '-' && r.Some? ==> r.value <= 0
  {
    if |s| == 0 then None
    else
      var digits := if s[0] == '-' || s[0] == '+' then s[1..] else s;
      if |digits| == 0 || !AllDigits(digits) then None
      else
        var v: int := if s[0] == '-' then 0 - DigitsValue(digits) as int else DigitsValue(digits);
        if MinInt64 <= v <= MaxInt64 then Some(v) else None
  }

  /** The shortest decimal rendering of `n`: no sign, no leading zero. */
  function NatDigits(n: nat): (s: string)
    ensures |s| > 0 && AllDigits(s)
    ensures |s| > 1 ==> s[0] != '0'
  {
    if n < 10 then [DigitChar(n)] else NatDigits(n / 10) + [DigitChar(n % 10)]
  }

  /** `strconv.Itoa`. */
  function Itoa(n: Int64): string {
    if n < 0 then "-" + NatDigits(-(n as int)) else NatDigits(n)
  }

  lemma {:induction false} NatDigitsValue(n: nat)
    ensures DigitsValue(NatDigits(n)) == n
  {
    if n >= 10 {
      var s := NatDigits(n);
      assert s[..|s| - 1] == NatDigits(n / 10);
      NatDigitsValue(n / 10);
    }
  }

  /** Every 64-bit integer survives formatting and parsing back. */
  lemma AtoiItoa(n: Int64)
    ensures Atoi(Itoa(n)) == Some(n)
  {
    if n < 0 {
      NatDigitsValue(-(n as int));
      assert Itoa(n)[1..] == NatDigits(-(n as int));
    } else {
      NatDigitsValue(n);
    }
  }

  /** A plain run of digits is read as its value whenever that fits. */
  lemma AtoiDigits(s: string)
    requires |s| > 0 && AllDigits(s) && DigitsValue(s) <= MaxInt64
    ensures Atoi(s) == Some(DigitsValue(s) as Int64)
  {
  }

  /**
    A sign in front of a digit run: "+" changes nothing, and "-" negates the
    value, down to the smallest 64-bit integer.
   */
  lemma AtoiSigned(s: string)
    requires |s| > 0 && AllDigits(s)
    ensures Atoi("+" + s) == Atoi(s)
    ensures DigitsValue(s) <= -MinInt64 ==> Atoi("-" + s) == Some(-(DigitsValue(s) as int))
    ensures DigitsValue(s) > -MinInt64 ==> Atoi("-" + s).None?
  {
    var plus, minus := "+" + s, "-" + s;
    assert plus[0] == '+' && plus[1..] == s;
    assert minus[0] == '-' && minus[1..] == s;
    assert s[0] != '-' && s[0] != '+';
  }

  /**
    An unsigned or "+" digit run above the largest 64-bit integer is
    rejected outright, never clamped.
   */
  lemma AtoiDigitsTooLarge(s: string)
    requires |s| > 0 && AllDigits(s) && DigitsValue(s) > MaxInt64
    ensures Atoi(s).None? && Atoi("+" + s).None?
  {
    AtoiSigned(s);
  }

  /** Atoi rejects the empty string, a lone sign and any non-digit body. */
  lemma AtoiRejects(s: string)
    requires |s| == 0 || s == "-" || s == "+" || (|s| > 0 && IsDigit(s[0]) && !AllDigits(s))
    ensures Atoi(s).None?
  {
  }
}

=== FILE: model.dfy ===
/**
  The records of the task tracker and the abstract store they live in.
  Timestamps are a logical clock (`Time`); ids handed out by the database
  or by a UUID generator are passed in by the caller of each operation.
 */
module Model {
  import opened Wrappers
  import opened Decimal

  type Time = nat
  type TaskId = string
  type SpaceId = string
  type UserId = Int64
  type Role = string

  const StatusToDo: string := "to-do"
  const StatusDone: string := "done"
  /** The one approval status the done-guard refuses, spelled as the guard spells it. */
  const NeedApprove: string := "need-approve"
  const RoleAdmin: Role := "admin"
  const RoleMember: Role := "member"

  /** The range of PostgreSQL's `INTEGER`, the type of every user-id column. */
  const MinInteger: int := -0x8000_0000
  const MaxInteger: int := 0x7FFF_FFFF

  /** `u` can be sent as a user-id column value; a larger Go `int` is refused before the query runs. */
  predicate FitsInteger(u: UserId) {
    MinInteger <= u <= MaxInteger
  }

  /**
    A task row. Reporter, approver, approval status, deadline and dashboard
    are required text; assigner, reviewer, the start and completion stamps
    and the space are nullable. `blockedBy` is a plain list of task ids:
    nothing requires them to exist or to be free of cycles.
   */
  datatype Task = Task(
    id: TaskId,
    title: string,
    description: string,
    status: string,
    reporterId: string,
    assignerId: Option<string>,
    reviewerId: Option<string>,
    approverId: string,
    approveStatus: string,
    createdAt: Time,
    updatedAt: Time,
    startedAt: Option<Time>,
    completedAt: Option<Time>,
    deadline: string,
    dashboardId: string,
    blockedBy: seq<TaskId>,
    space: Option<SpaceId>)

  /**
    A sparse update: `None` keeps the stored value, `Some(v)` stores `v`.
    There is no field for the id, the space or either bookkeeping stamp,
    and a present value is never null, so a patch cannot clear a nullable
    column. The deadline arrives as a timestamp although the column is text.
   */
  datatype TaskPatch = TaskPatch(
    title: Option<string>,
    description: Option<string>,
    status: Option<string>,
    reporterId: Option<string>,
    assignerId: Option<string>,
    reviewerId: Option<string>,
    approverId: Option<string>,
    approveStatus: Option<string>,
    startedAt: Option<Time>,
    completedAt: Option<Time>,
    deadline: Option<Time>,
    dashboardId: Option<string>,
    blockedBy: Option<seq<TaskId>>)

  const EmptyPatch: TaskPatch :=
    TaskPatch(None, None, None, None, None, None, None, None, None, None, None, None, None)

  datatype Space = Space(id: SpaceId, name: string, creatorId: UserId, createdAt: Time)

  /**
    The persisted state: task rows by id, space rows by id, membership roles
    by (space, user), and the ids of registered users, which membership and
    space rows reference.
   */
  datatype Store = Store(
    tasks: map<TaskId, Task>,
    spaces: map<SpaceId, Space>,
    members: map<(SpaceId, UserId), Role>,
    users: set<UserId>)

  /** The steps of the space-creation transaction, any of which the database can fail. */
  datatype TxStep = AcquireConn | BeginTx | InsertSpace | InsertMembership | CommitTx

  datatype Error =
    | SpaceRequired                       // a task must name a non-empty space
    | InvalidReporterId(reporterId: string) // the reporter id is not a decimal integer
    | ReporterNotMember                   // the reporter does not belong to the space
    | TaskNotFound(id: TaskId)
    | TaskBlocked(blockers: seq<TaskId>)  // done refused: other tasks block this one
    | ApprovalRequired                    // done refused: approval still pending
    | UniqueViolation                     // an insert collides with an existing key
    | ForeignKeyViolation                 // a row references a missing space or user
    | IntegerOutOfRange                   // a user id does not fit the 32-bit column
    | Infrastructure(step: TxStep)        // the database failed at this step

  /** The answer of an operation together with the store it leaves behind. */
  datatype Transition<+T> = Transition(out: Result<T, Error>, store: Store)

  /** `a` and `b` agree on every field a client supplies at creation. */
  predicate SameContent(a: Task, b: Task) {
    && a.title == b.title
    && a.description == b.description
    && a.reporterId == b.reporterId
    && a.assignerId == b.assignerId
    && a.reviewerId == b.reviewerId
    && a.approverId == b.approverId
    && a.approveStatus == b.approveStatus
    && a.deadline == b.deadline
    && a.dashboardId == b.dashboardId
    && a.blockedBy == b.blockedBy
    && a.space == b.space
  }

  /**
    What the schema and the operations keep true: rows are stored under
    their own ids, a task is never updated before it is created, user ids
    fit their 32-bit column, a space's creator is a user, and every
    membership references an existing space and user.
   */
  predicate Valid(st: Store) {
    && (forall u :: u in st.users ==> FitsInteger(u))
    && (forall k :: k in st.tasks ==> st.tasks[k].id == k && st.tasks[k].createdAt <= st.tasks[k].updatedAt)
    && (forall s :: s in st.spaces ==> st.spaces[s].id == s && st.spaces[s].creatorId in st.users)
    && (forall m :: m in st.members ==> m.0 in st.spaces && m.1 in st.users)
  }

  /** The clock reading `now` is no earlier than any stored update stamp. */
  predicate ClockAfter(st: Store, now: Time) {
    forall k :: k in st.tasks ==> st.tasks[k].updatedAt <= now
  }
}

=== FILE: scenarios.dfy ===
/**
  End-to-end runs through the handlers and services: a space is created,
  a second user is invited, that user files a task, and the task is marked
  done or refused.
 */
module Scenarios {
  import opened Wrappers
  import opened Model
  import SpaceService
  import TaskService
  import SpaceHandler

  /** Users 1 and 2 are registered; nothing else exists. */
  const Initial: Store := Store(map[], map[], map[], {1, 2})

  /** A task filed by `reporter` in `space`, blocked by `blockers`. */
  function Filed(reporter: string, space: SpaceId, blockers: seq<TaskId>, approval: string): Task {
    Task("", "Build dashboard UI", "Components, tables, charts", "", reporter, None, None, "1", approval,
         0, 0, None, None, "2025-08-01", "dash-1", blockers, Some(space))
  }

  /**
    User 1 creates space "Frontend" and invites user 2 as a member; the
    resulting store has user 1 as admin and user 2 as member.
   */
  lemma SetUpFrontend()
    ensures var created := SpaceHandler.CreateSpace(Initial, SpaceHandler.RequestCtx(SpaceHandler.LocalInt(1), ""),
                                                    Some("Frontend"), "space-1", 1, 1, None);
      && created.response.Created?
      && SpaceService.IsMember(created.store, "space-1", 1) == Success((true, RoleAdmin))
      && var invited := SpaceHandler.InviteToSpace(created.store, SpaceHandler.RequestCtx(SpaceHandler.LocalInt(1), ""),
                                                   "space-1", Some(SpaceHandler.InviteBody(2, RoleMember)));
         && invited.response == SpaceHandler.NoContent
         && invited.store == Frontend()
  {
    var created := SpaceHandler.CreateSpace(Initial, SpaceHandler.RequestCtx(SpaceHandler.LocalInt(1), ""),
                                            Some("Frontend"), "space-1", 1, 1, None);
    assert created.store.members == map[("space-1", 1) := RoleAdmin];
  }

  /** The store the set-up leaves: one space, its admin 1 and its member 2. */
  function Frontend(): Store {
    Store(map[],
          map["space-1" := Space("space-1", "Frontend", 1, 1)],
          map[("space-1", 1) := RoleAdmin, ("space-1", 2) := RoleMember],
          {1, 2})
  }

  /** User 2 files an approved, unblocked task and it is marked done. */
  lemma MemberTaskIsMarkedDone()
    ensures var filed := TaskService.CreateTask(Frontend(), Filed("2", "space-1", [], "approved"), "task-1", 2);
      && filed.out.Success?
      && var done := TaskService.MarkTaskDone(filed.store, "task-1", 3);
         && done.out.Success?
         && done.out.value.status == StatusDone
         && done.out.value.completedAt == Some(3)
  {
    assert Decimal.Atoi("2") == Some(2) by {
      assert Decimal.DigitsValue("2") == 2;
    }
  }

  /** The same task blocked by "task-9" is refused, naming the blocker, and stays as it was. */
  lemma BlockedTaskIsRefused()
    ensures var filed := TaskService.CreateTask(Frontend(), Filed("2", "space-1", ["task-9"], "approved"), "task-1", 2);
      && filed.out.Success?
      && var done := TaskService.MarkTaskDone(filed.store, "task-1", 3);
         && done.out == Failure(TaskBlocked(["task-9"]))
         && done.store == filed.store
  {
    assert Decimal.Atoi("2") == Some(2) by {
      assert Decimal.DigitsValue("2") == 2;
    }
  }

  /** A user who is not a member of the space cannot file a task in it. */
  lemma OutsiderIsRefused()
    ensures TaskService.CreateTask(Frontend(), Filed("3", "space-1", [], "approved"), "task-1", 2)
         == Transition(Failure(ReporterNotMember), Frontend())
  {
    assert Decimal.Atoi("3") == Some(3) by {
      assert Decimal.DigitsValue("3") == 3;
    }
  }

  /** Only the admin may invite: the plain member's invitation is forbidden. */
  lemma MemberCannotInvite()
    ensures SpaceHandler.InviteToSpace(Frontend(), SpaceHandler.RequestCtx(SpaceHandler.LocalInt(2), ""),
                                       "space-1", Some(SpaceHandler.InviteBody(1, RoleMember)))
         == SpaceHandler.Reply(SpaceHandler.Forbidden, Frontend())
  {
  }

  /**
    A reporter id that parses but exceeds the 32-bit user-id column makes
    the membership query fail: the caller gets that database error, not a
    membership rejection.
   */
  lemma WideReporterIdFailsQuery()
    ensures TaskService.CreateTask(Frontend(), Filed("3000000000", "space-1", [], "approved"), "task-1", 2)
         == Transition(Failure(IntegerOutOfRange), Frontend())
  {
    assert Decimal.Atoi("3000000000") == Some(3000000000) by {
      assert Decimal.DigitsValue("3000000000") == 3000000000 by {
        assert "3000000000"[..9] == "300000000";
        assert "300000000"[..8] == "30000000";
        assert "30000000"[..7] == "3000000";
        assert "3000000"[..6] == "300000";
        assert "300000"[..5] == "30000";
        assert "30000"[..4] == "3000";
        assert "3000"[..3] == "300";
        assert "300"[..2] == "30";
        assert "30"[..1] == "3";
      }
    }
  }
}

=== FILE: space_handler.dfy ===
/**
  The decisions the space endpoints take before and around the membership
  registry: who the caller is, who may create a space, and who may invite.
 */
module SpaceHandler {
  import opened Wrappers
  import opened Decimal
  import opened Model
  import SpaceService

  /** What a middleware may have left under the request-local key "userID". */
  datatype LocalValue =
    | NoLocal
    | LocalInt(intValue: Int64)
    | LocalInt64(int64Value: Int64)
    | LocalString(text: string)
    | LocalOther   // a value of any other type

  /** The parts of a request that identify the caller; an absent header reads as "". */
  datatype RequestCtx = RequestCtx(userLocal: LocalValue, userHeader: string)

  datatype Response =
    | Created(space: Space)
    | NoContent
    | BadRequest
    | Unauthorized
    | Forbidden
    | InternalError(cause: Error)

  /** The reply to a request together with the store it leaves behind. */
  datatype Reply = Reply(response: Response, store: Store)

  /** The body of an invitation after JSON decoding; a missing user id decodes as 0. */
  datatype InviteBody = InviteBody(userId: Int64, role: Role)

  function LocalUserId(v: LocalValue): Option<UserId> {
    match v
    case LocalInt(i) => Some(i)
    case LocalInt64(i) => Some(i)
    case LocalString(s) => Atoi(s)
    case _ => None
  }

  /**
    The caller's user id: the request-local value when it is an integer or a
    numeric string, otherwise a numeric X-User-ID header, otherwise none
    (unauthorized). A non-numeric local string falls through to the header.
   */
  function UserIdFromCtx(c: RequestCtx): (r: Option<UserId>)
    ensures c.userLocal.LocalInt? ==> r == Some(c.userLocal.intValue)
    ensures c.userLocal.LocalInt64? ==> r == Some(c.userLocal.int64Value)
    ensures c.userLocal.LocalString? && Atoi(c.userLocal.text).Some? ==> r == Atoi(c.userLocal.text)
    ensures (|| c.userLocal.NoLocal? || c.userLocal.LocalOther?
             || (c.userLocal.LocalString? && Atoi(c.userLocal.text).None?)) ==> r == Atoi(c.userHeader)
  {
    var fromLocal := LocalUserId(c.userLocal);
    if fromLocal.Some? then fromLocal
    else if c.userHeader != "" && Atoi(c.userHeader).Some? then Atoi(c.userHeader)
    else None
  }

  /**
    POST /spaces. The body is `None` when it is not valid JSON. An
    unidentified caller is unauthorized; an empty name is a bad request;
    otherwise the space is created with the caller as its admin.
   */
  function CreateSpace(st: Store, c: RequestCtx, name: Option<string>, id: SpaceId,
                       now: Time, appNow: Time, fault: Option<TxStep>): (r: Reply)
    ensures UserIdFromCtx(c).None? ==> r == Reply(Unauthorized, st)
    ensures UserIdFromCtx(c).Some? && (name.None? || name == Some("")) ==> r == Reply(BadRequest, st)
    ensures !r.response.Created? ==> r.store == st
    ensures r.response.Created? ==>
      && UserIdFromCtx(c).Some? && name.Some? && name.value != ""
      && r.response.space.name == name.value
      && r.response.space.creatorId == UserIdFromCtx(c).value
      && SpaceService.IsMember(r.store, r.response.space.id, UserIdFromCtx(c).value) == Success((true, RoleAdmin))
    ensures UserIdFromCtx(c).Some? && name.Some? && name.value != "" ==>
      var t := SpaceService.CreateSpace(st, name.value, UserIdFromCtx(c).value, id, now, appNow, fault);
      && (r.response.Created? <==> t.out.Success?)
      && (t.out.Success? ==> r == Reply(Created(t.out.value), t.store))
      && (t.out.Failure? ==> r == Reply(InternalError(t.out.error), st))
  {
    var uid := UserIdFromCtx(c);
    if uid.None? then Reply(Unauthorized, st)
    else if name.None? || name.value == "" then Reply(BadRequest, st)
    else
      var t := SpaceService.CreateSpace(st, name.value, uid.value, id, now, appNow, fault);
      if t.out.Failure? then Reply(InternalError(t.out.error), st)
      else Reply(Created(t.out.value), t.store)
  }

  /** The caller holds exactly the role "admin" in `space`. */
  predicate IsAdmin(st: Store, space: SpaceId, user: UserId) {
    SpaceService.IsMember(st, space, user) == Success((true, RoleAdmin))
  }

  /**
    POST /spaces/:id/invite. The caller must be identified and must be an
    admin of the space before the body is even looked at; a caller id the
    membership query cannot send is an internal error. The body must then
    name a non-zero user id. An empty role invites an ordinary member.
   */
  function InviteToSpace(st: Store, c: RequestCtx, space: SpaceId, body: Option<InviteBody>): (r: Reply)
    ensures UserIdFromCtx(c).None? ==> r == Reply(Unauthorized, st)
    ensures UserIdFromCtx(c).Some? && space == "" ==> r == Reply(BadRequest, st)
    ensures UserIdFromCtx(c).Some? && space != "" && !FitsInteger(UserIdFromCtx(c).value) ==>
      r == Reply(InternalError(IntegerOutOfRange), st)
    ensures UserIdFromCtx(c).Some? && space != "" && FitsInteger(UserIdFromCtx(c).value) &&
            !IsAdmin(st, space, UserIdFromCtx(c).value) ==>
      r == Reply(Forbidden, st)
    ensures UserIdFromCtx(c).Some? && space != "" && IsAdmin(st, space, UserIdFromCtx(c).value) &&
            (body.None? || body.value.userId == 0) ==>
      r == Reply(BadRequest, st)
    ensures r.store.members != st.members ==>
      UserIdFromCtx(c).Some? && IsAdmin(st, space, UserIdFromCtx(c).value)
    ensures !r.response.NoContent? ==> r.store == st
    ensures r.response.NoContent? ==>
      && body.Some? && body.value.userId != 0
      && SpaceService.IsMember(r.store, space, body.value.userId)
         == Success((true, if body.value.role == "" then RoleMember else body.value.role))
      && (forall s: SpaceId, u: UserId :: (s, u) != (space, body.value.userId) ==>
            SpaceService.IsMember(r.store, s, u) == SpaceService.IsMember(st, s, u))
    ensures UserIdFromCtx(c).Some? && space != "" && IsAdmin(st, space, UserIdFromCtx(c).value) &&
            body.Some? && body.value.userId != 0 ==>
      var t := SpaceService.AddMember(st, space, body.value.userId, body.value.role);
      && (r.response.NoContent? <==> t.out.Success?)
      && (t.out.Success? ==> r == Reply(NoContent, t.store))
      && (t.out.Failure? ==> r == Reply(InternalError(t.out.error), st))
  {
    var uid := UserIdFromCtx(c);
    if uid.None? then Reply(Unauthorized, st)
    else if space == "" then Reply(BadRequest, st)
    else
      var membership := SpaceService.IsMember(st, space, uid.value);
      if membership.Failure? then Reply(InternalError(membership.error), st)
      else if !membership.value.0 || membership.value.1 != RoleAdmin then Reply(Forbidden, st)
      else if body.None? || body.value.userId == 0 then Reply(BadRequest, st)
      else
        var invitedRole := if body.value.role == "" then RoleMember else body.value.role;
        var t := SpaceService.AddMember(st, space, body.value.userId, invitedRole);
        if t.out.Failure? then Reply(InternalError(t.out.error), st)
        else Reply(NoContent, t.store)
  }

  /** Which local value is set decides alone when it resolves: the header is then ignored. */
  lemma LocalTakesPrecedence(v: LocalValue, h1: string, h2: string)
    requires LocalUserId(v).Some?
    ensures UserIdFromCtx(RequestCtx(v, h1)) == UserIdFromCtx(RequestCtx(v, h2))
  {
  }

  /** A numeric header identifies the caller only when no local value resolves. */
  lemma HeaderFallback(v: LocalValue, u: UserId)
    requires LocalUserId(v).None?
    ensures UserIdFromCtx(RequestCtx(v, Itoa(u))) == Some(u)
  {
    AtoiItoa(u);
  }

  /**
    An admin may invite themselves with another role, after which the space
    can have no admin at all: the registry does not keep one.
   */
  lemma AdminCanDemoteThemselves(st: Store, space: SpaceId, u: UserId)
    requires u != 0 && space != "" && IsAdmin(st, space, u)
    requires forall v :: (space, v) in st.members && v != u ==> st.members[(space, v)] != RoleAdmin
    ensures var r := InviteToSpace(st, RequestCtx(LocalInt(u), ""), space, Some(InviteBody(u, RoleMember)));
      && r.response == NoContent
      && forall v :: (space, v) in r.store.members ==> r.store.members[(space, v)] != RoleAdmin
  {
  }
}

=== FILE: space_service.dfy ===
/**
  The membership registry: space creation with the creator's admin
  membership in one transaction, the membership upsert, and the
  membership query.
 */
module SpaceService {
  import opened Wrappers
  import opened Model

  /**
    Whether `user` belongs to `space`, and with which role. A missing row is
    an ordinary answer, `(false, "")`, not an error. A user id outside the
    32-bit column range cannot be sent, and the query fails.
   */
  function IsMember(st: Store, space: SpaceId, user: UserId): (r: Result<(bool, Role), Error>)
    ensures r.Failure? <==> !FitsInteger(user)
    ensures r.Failure? ==> r.error == IntegerOutOfRange
    ensures r.Success? ==> (r.value.0 <==> (space, user) in st.members)
    ensures r.Success? && r.value.0 ==> r.value.1 == st.members[(space, user)]
    ensures r.Success? && !r.value.0 ==> r.value.1 == ""
  {
    if !FitsInteger(user) then Failure(IntegerOutOfRange)
    else if (space, user) in st.members then Success((true, st.members[(space, user)]))
    else Success((false, ""))
  }

  /**
    Inserting a space row: the creator id must fit its column, the id is a
    primary key, the creator references a user.
   */
  function InsertSpaceRow(db: Store, row: Space): (r: Result<Store, Error>)
    ensures r.Success? <==> FitsInteger(row.creatorId) && row.id !in db.spaces && row.creatorId in db.users
    ensures r.Success? ==> r.value == db.(spaces := db.spaces[row.id := row])
    ensures !FitsInteger(row.creatorId) ==> r == Failure(IntegerOutOfRange)
    ensures FitsInteger(row.creatorId) && row.id in db.spaces ==> r == Failure(UniqueViolation)
  {
    if !FitsInteger(row.creatorId) then Failure(IntegerOutOfRange)
    else if row.id in db.spaces then Failure(UniqueViolation)
    else if row.creatorId !in db.users then Failure(ForeignKeyViolation)
    else Success(db.(spaces := db.spaces[row.id := row]))
  }

  /**
    Inserting a membership row: the user id must fit its column, (space,
    user) is a primary key, both columns reference rows.
   */
  function InsertMembershipRow(db: Store, space: SpaceId, user: UserId, role: Role): (r: Result<Store, Error>)
    ensures r.Success? <==>
      FitsInteger(user) && (space, user) !in db.members && space in db.spaces && user in db.users
    ensures r.Success? ==> r.value == db.(members := db.members[(space, user) := role])
    ensures !FitsInteger(user) ==> r == Failure(IntegerOutOfRange)
    ensures FitsInteger(user) && (space, user) in db.members ==> r == Failure(UniqueViolation)
  {
    if !FitsInteger(user) then Failure(IntegerOutOfRange)
    else if (space, user) in db.members then Failure(UniqueViolation)
    else if space !in db.spaces || user !in db.users then Failure(ForeignKeyViolation)
    else Success(db.(members := db.members[(space, user) := role]))
  }

  /**
    Creates a space named `name` for `creator` under the freshly generated
    `id`, together with the creator's admin membership, in one transaction.
    `now` is the database clock stamping the row; `appNow` is the
    application clock stamping the returned value. `fault` names the step at
    which the database fails, if any. Either both rows appear or nothing
    changes.
   */
  function CreateSpace(st: Store, name: string, creator: UserId, id: SpaceId,
                       now: Time, appNow: Time, fault: Option<TxStep>): (r: Transition<Space>)
    ensures r.out.Failure? ==> r.store == st
    ensures r.out.Success? <==>
      fault.None? && FitsInteger(creator) && id !in st.spaces && creator in st.users && (id, creator) !in st.members
    ensures r.out.Success? ==> r.out.value == Space(id, name, creator, appNow)
    ensures r.out.Success? ==>
      && r.store.spaces == st.spaces[id := Space(id, name, creator, now)]
      && r.store.members == st.members[(id, creator) := RoleAdmin]
      && r.store.tasks == st.tasks
      && r.store.users == st.users
    ensures fault.Some? ==> r.out.Failure?
    ensures fault == Some(AcquireConn) || fault == Some(BeginTx) || fault == Some(InsertSpace) ==>
      r.out == Failure(Infrastructure(fault.value))
  {
    if fault == Some(AcquireConn) || fault == Some(BeginTx) then
      Transition(Failure(Infrastructure(fault.value)), st)
    else
      var row := Space(id, name, creator, now);
      var afterSpace := if fault == Some(InsertSpace) then Failure(Infrastructure(InsertSpace))
                        else InsertSpaceRow(st, row);
      if afterSpace.Failure? then Transition(Failure(afterSpace.error), st)
      else
        var afterMember := if fault == Some(InsertMembership) then Failure(Infrastructure(InsertMembership))
                           else InsertMembershipRow(afterSpace.value, id, creator, RoleAdmin);
        if afterMember.Failure? then Transition(Failure(afterMember.error), st)
        // the only step still able to fail is the commit
        else if fault.Some? then Transition(Failure(Infrastructure(fault.value)), st)
        else Transition(Success(row.(createdAt := appNow)), afterMember.value)
  }

  /** The role a membership gets: an empty role means an ordinary member. */
  function EffectiveRole(role: Role): (r: Role)
    ensures r != ""
    ensures role == "" ==> r == RoleMember
    ensures role != "" ==> r == role
  {
    if role == "" then RoleMember else role
  }

  /**
    Invites `user` into `space` or changes their role (last writer wins).
    The user id must fit its column. A new pair must reference an existing
    space and user; an existing pair only has its role overwritten.
   */
  function AddMember(st: Store, space: SpaceId, user: UserId, role: Role): (r: Transition<()>)
    ensures r.out.Failure? ==> r.store == st
    ensures !FitsInteger(user) ==> r.out == Failure(IntegerOutOfRange)
    ensures FitsInteger(user) && r.out.Failure? ==> r.out.error == ForeignKeyViolation
    ensures r.out.Success? <==>
      FitsInteger(user) && ((space, user) in st.members || (space in st.spaces && user in st.users))
    ensures r.out.Success? ==>
      && r.store.members == st.members[(space, user) := EffectiveRole(role)]
      && r.store.tasks == st.tasks && r.store.spaces == st.spaces && r.store.users == st.users
  {
    var stored := EffectiveRole(role);
    if !FitsInteger(user) then
      Transition(Failure(IntegerOutOfRange), st)
    else if (space, user) !in st.members && (space !in st.spaces || user !in st.users) then
      Transition(Failure(ForeignKeyViolation), st)
    else
      Transition(Success(()), st.(members := st.members[(space, user) := stored]))
  }

  /** After a successful creation the creator is an admin of the new space. */
  lemma CreateSpaceMakesCreatorAdmin(st: Store, name: string, creator: UserId, id: SpaceId,
                                     now: Time, appNow: Time, fault: Option<TxStep>)
    requires CreateSpace(st, name, creator, id, now, appNow, fault).out.Success?
    ensures var r := CreateSpace(st, name, creator, id, now, appNow, fault);
      && r.out.value.id in r.store.spaces
      && r.store.spaces[r.out.value.id].name == name
      && r.store.spaces[r.out.value.id].creatorId == creator
      && IsMember(r.store, r.out.value.id, creator) == Success((true, RoleAdmin))
  {
  }

  /**
    All or nothing: either the store is untouched, or both the space row and
    the creator's membership row are new and nothing else changed.
   */
  lemma CreateSpaceAllOrNothing(st: Store, name: string, creator: UserId, id: SpaceId,
                                now: Time, appNow: Time, fault: Option<TxStep>)
    ensures var r := CreateSpace(st, name, creator, id, now, appNow, fault);
      || r.store == st
      || (&& id !in st.spaces && id in r.store.spaces
          && (id, creator) !in st.members && (id, creator) in r.store.members
          && r.store.spaces - {id} == st.spaces
          && r.store.members - {(id, creator)} == st.members
          && r.store.tasks == st.tasks && r.store.users == st.users)
  {
  }

  /** Creating a space never alters a space or membership that existed before. */
  lemma CreateSpaceKeepsExisting(st: Store, name: string, creator: UserId, id: SpaceId,
                                 now: Time, appNow: Time, fault: Option<TxStep>)
    ensures var r := CreateSpace(st, name, creator, id, now, appNow, fault);
      && (forall s :: s in st.spaces ==> s in r.store.spaces && r.store.spaces[s] == st.spaces[s])
      && (forall m :: m in st.members ==> m in r.store.members && r.store.members[m] == st.members[m])
  {
  }

  /** In a consistent store creation fails only on a fault, a taken id or an unknown creator. */
  lemma CreateSpaceSucceeds(st: Store, name: string, creator: UserId, id: SpaceId,
                            now: Time, appNow: Time)
    requires Valid(st) && id !in st.spaces && creator in st.users
    ensures CreateSpace(st, name, creator, id, now, appNow, None).out.Success?
  {
  }

  lemma CreateSpacePreservesValid(st: Store, name: string, creator: UserId, id: SpaceId,
                                  now: Time, appNow: Time, fault: Option<TxStep>)
    requires Valid(st)
    ensures Valid(CreateSpace(st, name, creator, id, now, appNow, fault).store)
  {
  }

  /** After a successful AddMember the pair is a member with the effective role. */
  lemma AddMemberThenIsMember(st: Store, space: SpaceId, user: UserId, role: Role)
    requires AddMember(st, space, user, role).out.Success?
    ensures IsMember(AddMember(st, space, user, role).store, space, user) == Success((true, EffectiveRole(role)))
    ensures role == "" ==> IsMember(AddMember(st, space, user, role).store, space, user) == Success((true, RoleMember))
  {
  }

  /** AddMember changes no pair other than (space, user). */
  lemma AddMemberFrame(st: Store, space: SpaceId, user: UserId, role: Role, s: SpaceId, u: UserId)
    requires (s, u) != (space, user)
    ensures IsMember(AddMember(st, space, user, role).store, s, u) == IsMember(st, s, u)
  {
  }

  /** Repeating the same AddMember changes nothing further. */
  lemma AddMemberIdempotent(st: Store, space: SpaceId, user: UserId, role: Role)
    ensures var once := AddMember(st, space, user, role);
      AddMember(once.store, space, user, role) == Transition(once.out, once.store)
  {
  }

  /** A later AddMember for the same pair wins over an earlier one. */
  lemma AddMemberLastWriterWins(st: Store, space: SpaceId, user: UserId, role1: Role, role2: Role)
    requires AddMember(st, space, user, role1).out.Success?
    ensures AddMember(AddMember(st, space, user, role1).store, space, user, role2).store
         == AddMember(st, space, user, role2).store
  {
  }

  lemma AddMemberPreservesValid(st: Store, space: SpaceId, user: UserId, role: Role)
    requires Valid(st)
    ensures Valid(AddMember(st, space, user, role).store)
  {
  }
}

=== FILE: task_service.dfy ===
/**
  The task engine: creation behind the space-membership check, lookup and
  dashboard filtering, the sparse patch, unconditional deletion and the
  guarded transition to "done".
 */
module TaskService {
  import opened Wrappers
  import opened Decimal
  import opened Model
  import SpaceService

  /** The reporter id as an integer, when it is one. */
  function ReporterUser(input: Task): Option<UserId> {
    Atoi(input.reporterId)
  }

  /** The checks a new task must pass before it is inserted, in the order they run. */
  predicate MayCreate(st: Store, input: Task) {
    && input.space.Some? && input.space.value != ""
    && ReporterUser(input).Some?
    && FitsInteger(ReporterUser(input).value)
    && (input.space.value, ReporterUser(input).value) in st.members
  }

  /**
    Creates a task from `input` under the fresh id `id` at database time
    `now`. The input's id and all four timestamps are ignored: the row gets
    `id`, both bookkeeping stamps are `now`, and it is neither started nor
    completed. An empty status becomes "to-do".
   */
  function CreateTask(st: Store, input: Task, id: TaskId, now: Time): (r: Transition<Task>)
    ensures r.out.Failure? ==> r.store == st
    ensures input.space.None? || input.space == Some("") ==> r.out == Failure(SpaceRequired)
    ensures input.space.Some? && input.space.value != "" && ReporterUser(input).None? ==>
      r.out == Failure(InvalidReporterId(input.reporterId))
    ensures input.space.Some? && input.space.value != "" && ReporterUser(input).Some? &&
            !FitsInteger(ReporterUser(input).value) ==>
      r.out == Failure(IntegerOutOfRange)
    ensures input.space.Some? && input.space.value != "" && ReporterUser(input).Some? &&
            FitsInteger(ReporterUser(input).value) &&
            (input.space.value, ReporterUser(input).value) !in st.members ==>
      r.out == Failure(ReporterNotMember)
    ensures r.out.Success? <==> MayCreate(st, input) && id !in st.tasks
    ensures r.out.Success? ==>
      var t := r.out.value;
      && t.id == id
      && SameContent(t, input)
      && t.status == (if input.status == "" then StatusToDo else input.status)
      && t.createdAt == now && t.updatedAt == now
      && t.startedAt.None? && t.completedAt.None?
    ensures r.out.Success? ==>
      && r.store.tasks == st.tasks[id := r.out.value]
      && r.store.spaces == st.spaces && r.store.members == st.members && r.store.users == st.users
  {
    if input.space.None? || input.space.value == "" then
      Transition(Failure(SpaceRequired), st)
    else if ReporterUser(input).None? then
      Transition(Failure(InvalidReporterId(input.reporterId)), st)
    else
      var membership := SpaceService.IsMember(st, input.space.value, ReporterUser(input).value);
      if membership.Failure? then Transition(Failure(membership.error), st)
      else if !membership.value.0 then Transition(Failure(ReporterNotMember), st)
      else if id in st.tasks then Transition(Failure(UniqueViolation), st)
      else
        var status := if input.status == "" then StatusToDo else input.status;
        var row := input.(id := id, status := status, createdAt := now, updatedAt := now,
                          startedAt := None, completedAt := None);
        Transition(Success(row), st.(tasks := st.tasks[id := row]))
  }

  /** Looks a task up by id; an unknown id is a not-found error. */
  function GetTaskByID(st: Store, id: TaskId): (r: Result<Task, Error>)
    ensures r.Success? <==> id in st.tasks
    ensures r.Success? ==> r.value == st.tasks[id]
    ensures r.Failure? ==> r.error == TaskNotFound(id)
  {
    if id in st.tasks then Success(st.tasks[id]) else Failure(TaskNotFound(id))
  }

  predicate OnDashboard(t: Task, dashboard: Option<string>) {
    dashboard.None? || t.dashboardId == dashboard.value
  }

  /** The ids of the rows a query for `dashboard` selects (every row when `None`). */
  function SelectedIds(tasks: map<TaskId, Task>, dashboard: Option<string>): set<TaskId> {
    set k | k in tasks && OnDashboard(tasks[k], dashboard)
  }

  /**
    Reads the rows on `dashboard` (all rows when `None`), one entry per
    selected row, in whatever order the database produces them.
   */
  method SelectTasks(tasks: map<TaskId, Task>, dashboard: Option<string>) returns (rows: seq<Task>)
    ensures forall i :: 0 <= i < |rows| ==> rows[i] in tasks.Values && OnDashboard(rows[i], dashboard)
    ensures forall k :: k in tasks && OnDashboard(tasks[k], dashboard) ==> tasks[k] in rows
    ensures |rows| == |SelectedIds(tasks, dashboard)|
  {
    rows := [];
    var pending := tasks.Keys;
    while pending != {}
      invariant pending <= tasks.Keys
      invariant forall i :: 0 <= i < |rows| ==> rows[i] in tasks.Values && OnDashboard(rows[i], dashboard)
      invariant forall k :: k in tasks && k !in pending && OnDashboard(tasks[k], dashboard) ==> tasks[k] in rows
      invariant |rows| == |SelectedIds(tasks, dashboard) - pending|
      decreases pending
    {
      var k :| k in pending;
      ghost var seen := SelectedIds(tasks, dashboard) - pending;
      pending := pending - {k};
      if OnDashboard(tasks[k], dashboard) {
        assert SelectedIds(tasks, dashboard) - pending == seen + {k};
        assert tasks[k] in tasks.Values;
        rows := rows + [tasks[k]];
      } else {
        assert SelectedIds(tasks, dashboard) - pending == seen;
      }
    }
  }

  /** Every task, one entry per row. */
  method ListTasks(st: Store) returns (rows: seq<Task>)
    ensures forall t :: t in rows <==> t in st.tasks.Values
    ensures |rows| == |st.tasks|
  {
    rows := SelectTasks(st.tasks, None);
    assert SelectedIds(st.tasks, None) == st.tasks.Keys;
  }

  /** Exactly the tasks on dashboard `dashboard`, one entry per row. */
  method GetTasksByDashboardID(st: Store, dashboard: string) returns (rows: seq<Task>)
    ensures forall t :: t in rows <==> t in st.tasks.Values && t.dashboardId == dashboard
    ensures |rows| == |set k | k in st.tasks && st.tasks[k].dashboardId == dashboard|
  {
    rows := SelectTasks(st.tasks, Some(dashboard));
    assert SelectedIds(st.tasks, Some(dashboard)) == set k | k in st.tasks && st.tasks[k].dashboardId == dashboard;
  }

  /**
    The text the deadline column receives from a timestamp. The database's
    own rendering is not modelled; this stand-in is injective.
   */
  function DeadlineText(t: Time): string {
    NatDigits(t)
  }

  /** Distinct deadlines are stored as distinct texts. */
  lemma DeadlineTextInjective(a: Time, b: Time)
    requires DeadlineText(a) == DeadlineText(b)
    ensures a == b
  {
    NatDigitsValue(a);
    NatDigitsValue(b);
  }

  /** `after` is what a patch field `p` leaves of `before`. */
  predicate Patched<T(==)>(p: Option<T>, before: T, after: T) {
    if p.Some? then after == p.value else after == before
  }

  /** The same for a nullable column: a present patch value is never null. */
  predicate PatchedNullable<T(==)>(p: Option<T>, before: Option<T>, after: Option<T>) {
    if p.Some? then after == Some(p.value) else after == before
  }

  /**
    The row a patch produces at application time `now`: every present field
    overwrites its column, every absent field keeps it, the update stamp is
    refreshed unconditionally, and the id, space and creation stamp never
    change.
   */
  function ApplyPatch(t: Task, p: TaskPatch, now: Time): (r: Task)
    ensures r.id == t.id && r.space == t.space && r.createdAt == t.createdAt
    ensures r.updatedAt == now
    ensures Patched(p.title, t.title, r.title)
    ensures Patched(p.description, t.description, r.description)
    ensures Patched(p.status, t.status, r.status)
    ensures Patched(p.reporterId, t.reporterId, r.reporterId)
    ensures PatchedNullable(p.assignerId, t.assignerId, r.assignerId)
    ensures PatchedNullable(p.reviewerId, t.reviewerId, r.reviewerId)
    ensures Patched(p.approverId, t.approverId, r.approverId)
    ensures Patched(p.approveStatus, t.approveStatus, r.approveStatus)
    ensures PatchedNullable(p.startedAt, t.startedAt, r.startedAt)
    ensures PatchedNullable(p.completedAt, t.completedAt, r.completedAt)
    ensures p.deadline.None? ==> r.deadline == t.deadline
    ensures p.deadline.Some? ==> r.deadline == DeadlineText(p.deadline.value)
    ensures Patched(p.dashboardId, t.dashboardId, r.dashboardId)
    ensures Patched(p.blockedBy, t.blockedBy, r.blockedBy)
  {
    Task(
      t.id,
      p.title.GetOr(t.title),
      p.description.GetOr(t.description),
      p.status.GetOr(t.status),
      p.reporterId.GetOr(t.reporterId),
      if p.assignerId.Some? then p.assignerId else t.assignerId,
      if p.reviewerId.Some? then p.reviewerId else t.reviewerId,
      p.approverId.GetOr(t.approverId),
      p.approveStatus.GetOr(t.approveStatus),
      t.createdAt,
      now,
      if p.startedAt.Some? then p.startedAt else t.startedAt,
      if p.completedAt.Some? then p.completedAt else t.completedAt,
      if p.deadline.Some? then DeadlineText(p.deadline.value) else t.deadline,
      p.dashboardId.GetOr(t.dashboardId),
      p.blockedBy.GetOr(t.blockedBy),
      t.space)
  }

  /**
    Applies `p` to task `id` at application time `now`. An unknown id is a
    not-found error and changes nothing; otherwise only that row changes.
   */
  function UpdateTask(st: Store, id: TaskId, p: TaskPatch, now: Time): (r: Transition<Task>)
    ensures id !in st.tasks ==> r.out == Failure(TaskNotFound(id)) && r.store == st
    ensures id in st.tasks ==>
      && r.out.Success?
      && r.out.value == ApplyPatch(st.tasks[id], p, now)
      && r.store == st.(tasks := st.tasks[id := r.out.value])
  {
    if id !in st.tasks then Transition(Failure(TaskNotFound(id)), st)
    else
      var row := ApplyPatch(st.tasks[id], p, now);
      Transition(Success(row), st.(tasks := st.tasks[id := row]))
  }

  /** Removes task `id` if present. Nothing refers back to it, so nothing else changes. */
  function DeleteTask(st: Store, id: TaskId): (r: Transition<()>)
    ensures r.out.Success?
    ensures r.store.tasks.Keys == st.tasks.Keys - {id}
    ensures forall k :: k in r.store.tasks ==> r.store.tasks[k] == st.tasks[k]
    ensures r.store.spaces == st.spaces && r.store.members == st.members && r.store.users == st.users
  {
    Transition(Success(()), st.(tasks := st.tasks - {id}))
  }

  /** Whether the done-guard lets task `t` through. */
  predicate MayMarkDone(t: Task) {
    |t.blockedBy| == 0 && t.approveStatus != NeedApprove
  }

  /**
    The guarded transition to "done" at database time `now`. A task blocked
    by other tasks is refused with the blockers; otherwise one whose approval
    status is exactly "need-approve" is refused. A task that passes becomes
    "done" with both its completion and update stamps set to `now`.
   */
  function MarkTaskDone(st: Store, id: TaskId, now: Time): (r: Transition<Task>)
    ensures r.out.Failure? ==> r.store == st
    ensures id !in st.tasks ==> r.out == Failure(TaskNotFound(id))
    ensures id in st.tasks && |st.tasks[id].blockedBy| > 0 ==>
      r.out == Failure(TaskBlocked(st.tasks[id].blockedBy))
    ensures id in st.tasks && |st.tasks[id].blockedBy| == 0 && st.tasks[id].approveStatus == NeedApprove ==>
      r.out == Failure(ApprovalRequired)
    ensures r.out.Success? <==> id in st.tasks && MayMarkDone(st.tasks[id])
    ensures r.out.Success? ==>
      var before := st.tasks[id];
      var after := r.out.value;
      && SameContent(before, after)
      && after.id == before.id && after.createdAt == before.createdAt && after.startedAt == before.startedAt
      && after.status == StatusDone
      && after.completedAt == Some(now) && after.updatedAt == now
      && r.store == st.(tasks := st.tasks[id := after])
  {
    if id !in st.tasks then Transition(Failure(TaskNotFound(id)), st)
    else
      var t := st.tasks[id];
      if |t.blockedBy| > 0 then Transition(Failure(TaskBlocked(t.blockedBy)), st)
      else if t.approveStatus == NeedApprove then Transition(Failure(ApprovalRequired), st)
      else
        var done := t.(status := StatusDone, completedAt := Some(now), updatedAt := now);
        Transition(Success(done), st.(tasks := st.tasks[id := done]))
  }

  /** A created task is immediately visible to a lookup by its id. */
  lemma CreateThenGet(st: Store, input: Task, id: TaskId, now: Time)
    requires CreateTask(st, input, id, now).out.Success?
    ensures GetTaskByID(CreateTask(st, input, id, now).store, id) == Success(CreateTask(st, input, id, now).out.value)
  {
  }

  /**
    A reporter id written as `Itoa(u)` is read back as `u`, so a member of
    the space whose id is rendered canonically passes every creation check.
   */
  lemma CreateTaskAcceptsCanonicalReporter(st: Store, input: Task, u: UserId, id: TaskId, now: Time)
    requires Valid(st)
    requires input.space.Some? && input.space.value != ""
    requires input.reporterId == Itoa(u) && (input.space.value, u) in st.members
    requires id !in st.tasks
    ensures CreateTask(st, input, id, now).out.Success?
  {
    AtoiItoa(u);
  }

  /** The blocking list is stored as given: neither its ids nor its shape affect creation. */
  lemma CreateTaskIgnoresBlockers(st: Store, input: Task, blockers: seq<TaskId>, id: TaskId, now: Time)
    ensures CreateTask(st, input.(blockedBy := blockers), id, now).out.Success?
        == CreateTask(st, input, id, now).out.Success?
    ensures CreateTask(st, input.(blockedBy := blockers), id, now).out.Success? ==>
      CreateTask(st, input.(blockedBy := blockers), id, now).out.value.blockedBy == blockers
  {
  }

  lemma CreateTaskPreservesValid(st: Store, input: Task, id: TaskId, now: Time)
    requires Valid(st)
    ensures Valid(CreateTask(st, input, id, now).store)
  {
  }

  /** The empty patch only refreshes the update stamp. */
  lemma ApplyEmptyPatch(t: Task, now: Time)
    ensures ApplyPatch(t, EmptyPatch, now) == t.(updatedAt := now)
  {
  }

  /** Applying the same patch twice at the same instant is the same as applying it once. */
  lemma ApplyPatchIdempotent(t: Task, p: TaskPatch, now: Time)
    ensures ApplyPatch(ApplyPatch(t, p, now), p, now) == ApplyPatch(t, p, now)
  {
  }

  /** A nullable column that holds a value keeps holding one after any patch. */
  lemma PatchCannotClear(t: Task, p: TaskPatch, now: Time)
    ensures var r := ApplyPatch(t, p, now);
      && (t.assignerId.Some? ==> r.assignerId.Some?)
      && (t.reviewerId.Some? ==> r.reviewerId.Some?)
      && (t.startedAt.Some? ==> r.startedAt.Some?)
      && (t.completedAt.Some? ==> r.completedAt.Some?)
  {
  }

  /** `q` applied after `p`: fields present in `q` win, the rest come from `p`. */
  function MergePatch(p: TaskPatch, q: TaskPatch): TaskPatch {
    TaskPatch(
      if q.title.Some? then q.title else p.title,
      if q.description.Some? then q.description else p.description,
      if q.status.Some? then q.status else p.status,
      if q.reporterId.Some? then q.reporterId else p.reporterId,
      if q.assignerId.Some? then q.assignerId else p.assignerId,
      if q.reviewerId.Some? then q.reviewerId else p.reviewerId,
      if q.approverId.Some? then q.approverId else p.approverId,
      if q.approveStatus.Some? then q.approveStatus else p.approveStatus,
      if q.startedAt.Some? then q.startedAt else p.startedAt,
      if q.completedAt.Some? then q.completedAt else p.completedAt,
      if q.deadline.Some? then q.deadline else p.deadline,
      if q.dashboardId.Some? then q.dashboardId else p.dashboardId,
      if q.blockedBy.Some? then q.blockedBy else p.blockedBy)
  }

  /** Two successive patches act as their merge applied at the later instant. */
  lemma ApplyPatchCompose(t: Task, p: TaskPatch, q: TaskPatch, now1: Time, now2: Time)
    ensures ApplyPatch(ApplyPatch(t, p, now1), q, now2) == ApplyPatch(t, MergePatch(p, q), now2)
  {
  }

  /** An update is immediately visible to a lookup, and leaves every other task alone. */
  lemma UpdateThenGet(st: Store, id: TaskId, p: TaskPatch, now: Time, other: TaskId)
    requires id in st.tasks && other != id
    ensures GetTaskByID(UpdateTask(st, id, p, now).store, id) == Success(ApplyPatch(st.tasks[id], p, now))
    ensures GetTaskByID(UpdateTask(st, id, p, now).store, other) == GetTaskByID(st, other)
  {
  }

  lemma UpdateTaskPreservesValid(st: Store, id: TaskId, p: TaskPatch, now: Time)
    requires Valid(st) && ClockAfter(st, now)
    ensures Valid(UpdateTask(st, id, p, now).store)
  {
  }

  /**
    The patch is not guarded: a task the done-guard refuses can still be
    given status "done" by an update.
   */
  lemma PatchBypassesDoneGuard(st: Store, id: TaskId, now: Time)
    requires id in st.tasks && !MayMarkDone(st.tasks[id])
    ensures MarkTaskDone(st, id, now).out.Failure?
    ensures UpdateTask(st, id, EmptyPatch.(status := Some(StatusDone)), now).out.Success?
    ensures UpdateTask(st, id, EmptyPatch.(status := Some(StatusDone)), now).out.value.status == StatusDone
  {
  }

  /** Deleting twice is the same as deleting once, and deleting an absent id changes nothing. */
  lemma DeleteTaskIdempotent(st: Store, id: TaskId)
    ensures DeleteTask(DeleteTask(st, id).store, id) == DeleteTask(st, id)
    ensures id !in st.tasks ==> DeleteTask(st, id).store == st
  {
    var once := DeleteTask(st, id).store;
    assert once.tasks - {id} == once.tasks;
    if id !in st.tasks {
      assert st.tasks - {id} == st.tasks;
    }
  }

  /** After a delete the id is not found; every other lookup answers as before. */
  lemma DeleteThenGet(st: Store, id: TaskId, other: TaskId)
    requires other != id
    ensures GetTaskByID(DeleteTask(st, id).store, id) == Failure(TaskNotFound(id))
    ensures GetTaskByID(DeleteTask(st, id).store, other) == GetTaskByID(st, other)
  {
  }

  lemma DeleteTaskPreservesValid(st: Store, id: TaskId)
    requires Valid(st)
    ensures Valid(DeleteTask(st, id).store)
  {
  }

  /**
    The guard compares against "need-approve" only, so a task whose approval
    status is "need-approval" and which nothing blocks is marked done.
   */
  lemma NeedApprovalSpellingPassesGuard(st: Store, id: TaskId, now: Time)
    requires id in st.tasks && st.tasks[id].blockedBy == [] && st.tasks[id].approveStatus == "need-approval"
    ensures MarkTaskDone(st, id, now).out.Success?
    ensures MarkTaskDone(st, id, now).out.value.status == StatusDone
  {
  }

  /**
    Marking a done task done again succeeds and moves its completion stamp:
    nothing makes "done" terminal.
   */
  lemma MarkTaskDoneRestamps(st: Store, id: TaskId, now1: Time, now2: Time)
    requires MarkTaskDone(st, id, now1).out.Success?
    ensures var again := MarkTaskDone(MarkTaskDone(st, id, now1).store, id, now2);
      again.out.Success? && again.out.value.completedAt == Some(now2)
  {
  }

  /** A task marked done is read back as done. */
  lemma MarkTaskDoneThenGet(st: Store, id: TaskId, now: Time)
    requires MarkTaskDone(st, id, now).out.Success?
    ensures var got := GetTaskByID(MarkTaskDone(st, id, now).store, id);
      got.Success? && got.value.status == StatusDone && got.value.completedAt == Some(now)
  {
  }

  lemma MarkTaskDonePreservesValid(st: Store, id: TaskId, now: Time)
    requires Valid(st) && ClockAfter(st, now)
    ensures Valid(MarkTaskDone(st, id, now).store)
  {
  }
}

=== FILE: wrappers.dfy ===
/** Failure-compatible wrappers shared by every module of the model. */
module Wrappers {

  /** A value that may be absent: Go's nil pointer or SQL NULL. */
  datatype Option<+T> = None | Some(value: T) {

    /** The carried value, or `default` when absent. */
    function GetOr(default: T): T {
      match this
      case Some(v) => v
      case None => default
    }
  }

  /** The outcome of an operation that can fail with an error value. */
  datatype Result<+T, +E> = Success(value: T) | Failure(error: E)
}
